=== FILE: README.md ===
# HERO.IO app store: a Dafny model of its state and list logic

HERO.IO is a small client-side "app store". It shows a static catalog of
products. The user can search and sort the catalog, open a details page per
app, and "install" or "uninstall" apps. Installing only records the app's id
in a local list. A navbar highlights the current section and shows how many
apps are installed.

This project models the logic behind those screens as immutable datatypes and
pure functions, and proves what the screens promise:

- `Store` (App.jsx) holds the installed-id list, the toast, the path and the
  loading flag. It defines `Install` and `Uninstall`, and `Route`, which splits
  the path on `/` to pick a page.
- `Listing` (pages/AppsPage.jsx) holds the case-insensitive search filter and
  the stable sort by downloads (either direction) or by rating. It also
  defines what the page shows: a count, then a "no results" panel or the card
  grid.
- `Installations` (pages/MyInstallationsPage.jsx) keeps the catalog products
  whose id is installed, and chooses between the empty message and the list.
- `Card` (components/AppCard.jsx) holds a card's button: its action, its
  disabled flag, its caption, and where a click on the card leads.
- `Details` (components/Appdetails.jsx) looks an app up by the id parsed from
  the path. Loading wins over "not found". The module also holds the
  install/uninstall toggle and its caption.
- `Navbar` (components/Navbar.jsx) holds the prefix test that highlights a
  tab, the badge condition, and the open/closed state of the mobile menu.
- `Text` holds the string operations the components call: ASCII
  `toLowerCase`, `includes`, `startsWith`, `split`, the decimal text of an
  integer and `parseInt`. `Catalog` holds the product record and `find` by
  id. `Seqs` and `Options` hold generic helpers.
- `Journeys` holds properties that cross components. A card's link opens that
  same app's details page. The details button flips the installed flag.
  "Get App" turns into a disabled "Installed" button. The navbar badge
  follows the list.

Four behaviours of the code are worth stating plainly:

- Uninstalling an id that was never installed still shows the
  "`<title>` uninstalled." toast when the catalog has that id; the list is
  left as it was. `Store.UninstallAbsent` states this.
- For a list of distinct products (a catalog with unique ids is one),
  reading the downloads high-to-low order backwards gives the low-to-high
  order only when no two download counts are equal. With ties, the stable
  sort keeps each tie group in catalog order in both directions.
  `Listing.DescIsReversedAsc` proves the reversal for distinct counts, and
  `Listing.TiesDefeatReversal` shows two apps with equal downloads for which
  it fails.
- Nothing checks that installed ids are catalog ids, because the ids loaded
  from storage are taken unchecked. `Store.ApplyKeepsInstalledInCatalog`
  proves that installs of catalog apps and all uninstalls keep that property
  once it holds. `Installations.StaleIdIgnored` shows that a stale id adds no
  card to the installations page.
- After any non-empty search term, the catalog page's next render throws.
  The spinner it draws names `Loader`, which pages/AppsPage.jsx does not
  import. `Listing.SearchingRenderThrows` states this, and "## Findings"
  gives the intended behaviour.

## Model

| member | source | states |
|---|---|---|
| Store.Install | Online-shop/src/App.jsx:40-45 | an absent id ends up appended after the unchanged old list, with the success toast "`<title>` installed successfully!"; a present id leaves the whole state unchanged |
| Store.InstallIdempotent | Online-shop/src/App.jsx:41 | installing the same app twice equals installing it once, so the list length is unchanged by the second install |
| Store.InstallKeepsNoDup | Online-shop/src/App.jsx:41-42 | install never introduces a duplicate id into a duplicate-free list |
| Store.RemoveAll | Online-shop/src/App.jsx:48 | the id no longer occurs, the result is a subsequence of the old list, and every other id keeps its number of occurrences |
| Store.Uninstall | Online-shop/src/App.jsx:47-53 | the list loses every occurrence of the id; the "`<title>` uninstalled." error toast names the first catalog product with that id whenever one exists, otherwise the toast is unchanged |
| Store.UninstallKeepsNoDup | Online-shop/src/App.jsx:48 | uninstall keeps a duplicate-free list duplicate-free |
| Store.RunKeepsNoDup | Online-shop/src/App.jsx:40-53 | starting from a duplicate-free list, any sequence of install, uninstall and no-op commands leaves the list duplicate-free |
| Store.UninstallAbsent | Online-shop/src/App.jsx:47-53 | uninstalling a catalog app that is not installed keeps the list but still sets its "uninstalled" toast |
| Store.InstallThenUninstall | Online-shop/src/App.jsx:40-53 | installing an absent app and then uninstalling its id restores the original list |
| Store.ApplyKeepsInstalledInCatalog | Online-shop/src/App.jsx:40-53 | if every installed id names a catalog product, installing a catalog product or uninstalling any id keeps it so |
| Store.Loaded | Online-shop/src/App.jsx:26-32 | the end of the initial load installs exactly the stored ids and clears the loading flag, keeping path and toast |
| Store.Navigate | Online-shop/src/App.jsx:13-15 | navigation replaces the path and nothing else |
| Store.RouteBySegment | Online-shop/src/App.jsx:55-102 | first path segment `apps`, `myinstall` or `details` selects that page (each an if-and-only-if); the details page receives the second segment or none; every other first segment, the empty one included, selects home |
| Store.RouteDetails | Online-shop/src/App.jsx:56-80 | the path `details/<t>` with a slash-free `t` selects the details page with parameter `t` |
| Store.NavbarCountSteps | Online-shop/src/App.jsx:110 | on a duplicate-free list, the count given to the navbar rises by one on installing an absent app and falls by one on uninstalling an installed one |
| Text.Split | Online-shop/src/App.jsx:56 | `split('/')` yields at least one segment, none holds `/`, and joining them with `/` gives the path back |
| Text.SplitJoin | Online-shop/src/App.jsx:56 | conversely, splitting slash-joined slash-free segments gives the segments back |
| Text.SplitSegments | Online-shop/src/App.jsx:56 | the first segment is the text before the first `/`; a second segment exists iff a `/` does and is the text up to the next `/` |
| Text.Includes | Online-shop/src/pages/AppsPage.jsx:13-14 | `includes` is true exactly when the needle occurs at some position of the text |
| Text.Lower | Online-shop/src/pages/AppsPage.jsx:13-14 | `toLowerCase` keeps the length and maps each character to its lower-case form, ASCII letters only (see "## Left out") |
| Text.LowerIdempotent | Online-shop/src/pages/AppsPage.jsx:13-14 | lower-casing leaves no upper-case letter, so lower-casing twice equals once |
| Text.IntToString | Online-shop/src/components/AppCard.jsx:18 | the text `${app.id}` writes: a leading `-` exactly for a negative id, then a non-empty digit run with no leading zero unless the id is 0, and never a `/` |
| Text.ParseInt | Online-shop/src/components/Appdetails.jsx:6 | `parseInt` gives a number exactly when the text, after one optional `+` or `-`, starts with a digit, negative or zero only after a `-`; the contract does not pin the value itself, which `Text.ParseIntOfIntToString` pins for an id's own text |
| Text.ParseIntOfIntToString | Online-shop/src/components/Appdetails.jsx:6 | `parseInt` of an integer's decimal text, followed by any text not starting with a digit, gives that integer back |
| Catalog.FindById | Online-shop/src/components/Appdetails.jsx:6 | `find` by id returns the product at the first position carrying the id, and returns nothing exactly when no product carries it |
| Catalog.FindByOwnId | Online-shop/src/components/Appdetails.jsx:6 | with distinct catalog ids, looking up a catalog product's own id finds that product |
| Listing.ModeOf | Online-shop/src/pages/AppsPage.jsx:19-25 | `high-low` selects downloads high-to-low, `low-high` downloads low-to-high and `rating` rating high-to-low, each exactly for that key; every other value keeps catalog order |
| Listing.FilterApps | Online-shop/src/pages/AppsPage.jsx:12-15 | the result is a subsequence of the catalog holding each matching product as often as the catalog does and no other; an app is kept iff the lower-cased term occurs in its lower-cased title or company name |
| Listing.EmptyTermKeepsAll | Online-shop/src/pages/AppsPage.jsx:12-15 | an empty search keeps the whole catalog in order |
| Listing.MatchesIgnoresTermCase | Online-shop/src/pages/AppsPage.jsx:13-14 | whether an app matches does not depend on the case of the search term |
| Listing.SortBy | Online-shop/src/pages/AppsPage.jsx:17-25 | the sort result is a permutation of its input, ordered by the mode's key, and every group of equal keys keeps its input order (stability) |
| Listing.SortedUnique | Online-shop/src/pages/AppsPage.jsx:20-24 | two key-ordered sequences with the same tie groups are equal, so the stable result is the only one possible |
| Listing.DescIsReversedAsc | Online-shop/src/pages/AppsPage.jsx:20-22 | with pairwise distinct download counts, the high-to-low order is the low-to-high order reversed |
| Listing.TiesDefeatReversal | Online-shop/src/pages/AppsPage.jsx:20-22 | two different apps with equal downloads stay in catalog order under both download sorts, so the high-to-low order is not the low-to-high order reversed |
| Listing.FilteredAndSorted | Online-shop/src/pages/AppsPage.jsx:11-27 | the page's list is a permutation of the filtered catalog; `none` or an unknown key gives the filtered catalog order; `high-low` is non-increasing and `low-high` non-decreasing in downloads, `rating` non-increasing in rating; ties stay in catalog order |
| Listing.AppsPageView | Online-shop/src/pages/AppsPage.jsx:39-101 | loading shows only the indicator; otherwise the total equals the list length, the no-results panel appears iff the list is empty, and card i shows app i with its installed flag and no installed-page flag |
| Listing.SearchingAfterEdit | Online-shop/src/pages/AppsPage.jsx:29-36 | right after the search term changes, the searching flag is set exactly when the term is non-empty |
| Listing.AppsRenderAsWritten | Online-shop/src/pages/AppsPage.jsx:66-68 | as written, a render that is not loading throws exactly while the searching flag is set (the spinner names `Loader`, which the page does not import), and otherwise shows the listing view |
| Listing.SearchingRenderThrows | Online-shop/src/pages/AppsPage.jsx:29-33 | after typing any non-empty search term, the render as written throws |
| Listing.AppsRender | Online-shop/src/pages/AppsPage.jsx:66-68 | with the spinner drawn as intended, it is shown exactly while searching and not loading, and the view is the listing `Listing.AppsPageView` gives, the loading view exactly while loading |
| Listing.SearchSpinnerKeepsListing | Online-shop/src/pages/AppsPage.jsx:29-68 | with the spinner drawn as intended, searching leaves the view exactly the `Listing.AppsPageView` listing, as without the flag, with the total equal to the result's length, and shows the spinner iff the term is non-empty |
| Card.OnInstalledPage | Online-shop/src/components/AppCard.jsx:5 | the card is in installed-page mode only when the flag is given as true; an omitted flag means false |
| Card.ButtonAction | Online-shop/src/components/AppCard.jsx:6-13 | on the installed page the button uninstalls the app's id; elsewhere it installs the app iff the app is not installed, and does nothing otherwise |
| Card.ClickPath | Online-shop/src/components/AppCard.jsx:18 | clicking a card navigates to `details/` followed by the app id's decimal text |
| Card.ButtonAgreesWithAction | Online-shop/src/components/AppCard.jsx:49-68 | the button is disabled iff pressing it does nothing; its caption is "Uninstall" iff it uninstalls, "Get App" iff it installs, "Installed" iff it is disabled |
| Installations.InstalledApps | Online-shop/src/pages/MyInstallationsPage.jsx:7 | the result is a subsequence of the catalog, in catalog order; a catalog product appears iff its id is installed, as often as in the catalog |
| Installations.DependsOnIdSet | Online-shop/src/pages/MyInstallationsPage.jsx:7 | two installed lists naming the same catalog ids give the same page, so repeated ids do not repeat cards |
| Installations.StaleIdIgnored | Online-shop/src/pages/MyInstallationsPage.jsx:7 | an installed id that no product carries adds no card |
| Installations.NoDuplicateCards | Online-shop/src/pages/MyInstallationsPage.jsx:7 | with distinct catalog ids, no two cards show the same id |
| Installations.InstallationsPageView | Online-shop/src/pages/MyInstallationsPage.jsx:9-41 | loading shows the placeholder; otherwise an empty result shows "You haven't installed any apps yet." and a non-empty one shows a count equal to its length and one installed-page card per app |
| Installations.CardsUninstall | Online-shop/src/pages/MyInstallationsPage.jsx:28-36 | every button on the installations page uninstalls its own app and none is disabled |
| Details.DetailsPageView | Online-shop/src/components/Appdetails.jsx:5-29 | the loading view appears exactly while loading; otherwise an id that does not parse, or that no product carries, gives the 404 view, and any other id shows the first product carrying it, marked installed iff its id is in the list |
| Details.ExitPath | Online-shop/src/components/Appdetails.jsx:16-58 | the 404 button (and the back link of the found view) navigates to `apps`; the loading view offers none |
| Details.DetailsAction | Online-shop/src/components/Appdetails.jsx:31-37 | the button uninstalls the shown app's id iff it is installed and installs the shown app iff it is not |
| Details.DetailsLabel | Online-shop/src/components/Appdetails.jsx:39 | the caption is "Uninstall" iff the app is installed, else "Install Now" |
| Navbar.RenderTab | Online-shop/src/components/Navbar.jsx:16-35 | a tab is highlighted iff the current path starts with its target; it carries a badge iff it shows a count and the count is positive, and the badge shows the count |
| Navbar.MobileMenu | Online-shop/src/components/Navbar.jsx:95-110 | the mobile menu is rendered, with the three tabs, iff the menu is open |
| Navbar.Step | Online-shop/src/components/Navbar.jsx:7-105 | the hamburger flips the menu; a tab click navigates to its target and closes the menu; the logo navigates home and leaves the menu alone; the mobile Contribute link closes the menu |
| Navbar.ToggleTwice | Online-shop/src/components/Navbar.jsx:7 | two toggles restore the menu state |
| Navbar.TabClickHidesMenu | Online-shop/src/components/Navbar.jsx:24 | after any tab click the mobile menu is not rendered |
| Navbar.OwnPathActivatesOnlyOwnTab | Online-shop/src/components/Navbar.jsx:55-57 | on the path `home`, `apps` or `myinstall` exactly the tab with that target is highlighted |
| Navbar.DetailsActivatesNoTab | Online-shop/src/components/Navbar.jsx:17 | a `details/...` path highlights no tab |
| Navbar.BadgeOnlyOnInstallations | Online-shop/src/components/Navbar.jsx:29 | of the three tabs only the installations tab can carry the badge, and it does iff the count is positive |
| Journeys.CardOpensItsDetails | Online-shop/src/components/AppCard.jsx:18 | the card's path routes to the details page, its parameter parses back to the app's id, and the page shows that app with its installed flag |
| Journeys.DetailsButtonToggles | Online-shop/src/components/Appdetails.jsx:31-37 | after the details button's command runs, the same page shows the same app with the installed flag flipped |
| Journeys.CatalogCardInstalls | Online-shop/src/pages/AppsPage.jsx:91-98 | pressing "Get App" installs the app, after which the card in the same place says "Installed" and is disabled |
| Journeys.InstallationsCardUninstalls | Online-shop/src/pages/MyInstallationsPage.jsx:28-36 | pressing a card's button on the installations page removes its id from the list and its card from the page |
| Journeys.BadgeFollowsInstalledList | Online-shop/src/App.jsx:107-111 | the installations tab has a badge iff the installed list is non-empty, showing the list's length |
| Journeys.InstallUninstallScenario | Online-shop/src/App.jsx:40-53 | install of A gives the list [A's id] and the toast "A installed successfully!"; uninstalling it empties the list with the toast "A uninstalled." |
| Journeys.RatingOrderScenario | Online-shop/src/pages/AppsPage.jsx:23-24 | with an empty search and the rating order, the app rated 4.5 is listed before the app rated 3.0 |

## Left out

- Persistence: `getInstalledApps`, `saveInstalledApps` and the save-on-change effect (App.jsx:34-38) read and write browser storage through a data module that is not part of this model. `Store.Loaded` takes the stored ids as a parameter instead.
- Timers: the 800 ms initial load delay, the 500 ms timeout that clears the catalog page's searching flag, and the 3000 ms toast auto-clear and its close button (components/Toast.jsx). The delays are event-loop timing. Only the end of the load (`Store.Loaded`) and the flag's value right after a term change (`Listing.SearchingAfterEdit`) are modelled.
- React's batching and closures: `handleInstall` tests the list captured by the current render and appends through a functional update. The model runs each event on the latest state, so two installs of one app within a single render are not modelled.
- `formatDownloads`, `renderStars`, `ChartPlaceholder` and the other number formatting in components/Utils.jsx, and the `toFixed`/`toLocaleString` calls in components/AppCard.jsx:38 and components/Appdetails.jsx:75, 77 and 132. This is floating-point display only.
- The second `AppCard` in components/Utils.jsx is identical to components/AppCard.jsx, which is modelled.
- The home page's markup and its `slice(0, 4)` of featured apps. The toast's styling. Image `onError` fallbacks. The external store links on the details page. All JSX/CSS rendering beyond the choice of view.
- Text.Lower: lower-cases ASCII letters only, because full Unicode `toLowerCase` (with its special cases) is not modelled.
- Text.ParseInt: leading whitespace, the `0x` hexadecimal prefix and the precision loss of digit strings beyond 2^53 are not modelled. Ids are unbounded integers, not doubles.
- Listing.AppsPageView: the listing is stated with the searching flag off. With the flag on, the code as written throws at pages/AppsPage.jsx:67, because `Loader` is not imported there (see "## Findings"). `Listing.AppsRenderAsWritten` states the throw, and `Listing.AppsRender` gives the evidently intended spinner.
- Listing.Key: the comparators subtract doubles. The model compares exact `real` values, so NaN ratings and rounding are not modelled.

## Findings

| source | as written | input that shows it | evidently intended | confidence | as-written member | corrected member |
|---|---|---|---|---|---|---|
| Online-shop/src/pages/AppsPage.jsx:66-68 | while the searching flag is set, the page renders `<Loader …/>`, but the file imports only `Search`, `Sliders`, `LoadingIndicator` and `NoResults`, so `Loader` is an undeclared name and the render throws a ReferenceError | typing any non-empty search term, e.g. "a": the effect at lines 29-33 sets the flag, and the next render reaches line 67 | a spinning loader beside the search field for 500 ms, with the listing unchanged (import `Loader` from `lucide-react`, as components/Utils.jsx:2 does) | not executed; high (the identifier is not declared in the module) | Listing.AppsRenderAsWritten, Listing.SearchingRenderThrows | Listing.AppsRender, Listing.SearchSpinnerKeepsListing |

=== FILE: card.dfy ===
/** One product card: what its button does, whether it is disabled, what it
    says, and where a click on the card leads. */
module Card {
  import opened Options
  import opened Text
  import opened Catalog

  /** The card's props; `isInstalledPage` is `None` when the caller omits it. */
  datatype CardProps = CardProps(app: Product, isInstalled: bool, isInstalledPage: Option<bool>)

  /** The `isInstalledPage = false` default: only an explicit `true` puts the
      card in installed-page mode. */
  function OnInstalledPage(props: CardProps): (b: bool)
    ensures b <==> props.isInstalledPage == Some(true)
  {
    match props.isInstalledPage
    case None => false
    case Some(flag) => flag
  }

  /** `handleAction`: on the installed page always uninstall this app's id;
      elsewhere install the app when it is not installed, and otherwise do
      nothing. */
  function ButtonAction(props: CardProps): (c: Command)
    ensures OnInstalledPage(props) ==> c == UninstallApp(props.app.id)
    ensures !OnInstalledPage(props) ==> (c == InstallApp(props.app) <==> !props.isInstalled)
    ensures !OnInstalledPage(props) && props.isInstalled ==> c == NoCommand
  {
    if OnInstalledPage(props) then UninstallApp(props.app.id)
    else if !props.isInstalled then InstallApp(props.app)
    else NoCommand
  }

  /** `disabled={!isInstalledPage && isInstalled}`. */
  function Disabled(props: CardProps): bool
  {
    !OnInstalledPage(props) && props.isInstalled
  }

  /** The button text. */
  function Label(props: CardProps): string
  {
    if OnInstalledPage(props) then "Uninstall"
    else if props.isInstalled then "Installed"
    else "Get App"
  }

  /** Where a click on the card body navigates: `details/<id>`. */
  function ClickPath(props: CardProps): (path: string)
    ensures StartsWith(path, "details/")
    ensures path[|"details/"|..] == IntToString(props.app.id)
  {
    "details/" + IntToString(props.app.id)
  }

  /** The button is disabled exactly when pressing it would do nothing, and
      its label names what pressing it does. */
  lemma ButtonAgreesWithAction(props: CardProps)
    ensures Disabled(props) <==> ButtonAction(props) == NoCommand
    ensures Label(props) == "Uninstall" <==> ButtonAction(props).UninstallApp?
    ensures Label(props) == "Get App" <==> ButtonAction(props).InstallApp?
    ensures Label(props) == "Installed" <==> Disabled(props)
  {
  }
}

=== FILE: catalog.dfy ===
/** The static product list and the lookups every page performs on it. */
module Catalog {
  import opened Options

  datatype Review = Review(name: string, value: int)

  /** One catalog entry. `ratingAvg` and `size` are decimals in the program;
      only their order matters here, so they are `real`. */
  datatype Product = Product(
    id: int,
    title: string,
    companyName: string,
    description: string,
    image: string,
    ratingAvg: real,
    downloads: nat,
    size: real,
    reviews: nat,
    reviewData: seq<Review>)

  /** The ids of the catalog are pairwise distinct. */
  predicate UniqueIds(catalog: seq<Product>)
  {
    forall i, j :: 0 <= i < j < |catalog| ==> catalog[i].id != catalog[j].id
  }

  /** Position `i` holds the first product with id `id`. */
  ghost predicate FirstWithId(catalog: seq<Product>, id: int, i: int)
  {
    && 0 <= i < |catalog|
    && catalog[i].id == id
    && forall j :: 0 <= j < i ==> catalog[j].id != id
  }

  /** `catalog.find(a => a.id === id)`: the first product carrying `id`, or
      `None` exactly when no product carries it. */
  function FindById(catalog: seq<Product>, id: int): (r: Option<Product>)
    ensures r.None? <==> forall i :: 0 <= i < |catalog| ==> catalog[i].id != id
    ensures r.Some? ==> exists i :: FirstWithId(catalog, id, i) && catalog[i] == r.value
  {
    if catalog == [] then None
    else if catalog[0].id == id then
      assert FirstWithId(catalog, id, 0);
      Some(catalog[0])
    else
      var r := FindById(catalog[1..], id);
      assert forall i :: 0 < i < |catalog| ==> catalog[i] == catalog[1..][i - 1];
      assert r.Some? ==> forall i :: FirstWithId(catalog[1..], id, i) ==> FirstWithId(catalog, id, i + 1);
      r
  }

  /** With distinct ids, looking up a catalog product's id finds that very
      product. */
  lemma FindByOwnId(catalog: seq<Product>, p: Product)
    requires UniqueIds(catalog)
    requires p in catalog
    ensures FindById(catalog, p.id) == Some(p)
  {
    var k :| 0 <= k < |catalog| && catalog[k] == p;
    var r := FindById(catalog, p.id);
    var i :| FirstWithId(catalog, p.id, i) && catalog[i] == r.value;
    assert i == k;
  }

  /** What a page asks the application shell to do through the `onInstall`
      and `onUninstall` callbacks it was handed (or nothing). */
  datatype Command = InstallApp(app: Product) | UninstallApp(id: int) | NoCommand
}

=== FILE: details.dfy ===
/** The details page of one app, reached through `details/<id>`. */
module Details {
  import opened Options
  import opened Text
  import opened Catalog

  /** What the page shows: the loading indicator, the 404 panel, or the app
      with its installed flag. */
  datatype DetailsView = DetailsLoading | NotFound | Found(app: Product, isInstalled: bool)

  /** `parseInt(appId)`; a missing parameter is `undefined`, which parses to
      NaN (`None`) like every text without leading digits. */
  function ParsedId(param: Option<string>): Option<int>
  {
    match param
    case None => None
    case Some(text) => ParseInt(text)
  }

  /** The page: loading wins over everything; then an id that does not parse
      or that no product carries gives the 404 panel; otherwise the first
      product carrying the parsed id, installed when that id is in the list. */
  function DetailsPageView(param: Option<string>, catalog: seq<Product>, installed: seq<int>,
                           isLoading: bool): (v: DetailsView)
    ensures isLoading <==> v == DetailsLoading
    ensures !isLoading && ParsedId(param).None? ==> v == NotFound
    ensures !isLoading && ParsedId(param).Some? ==>
              (v == NotFound <==> forall i :: 0 <= i < |catalog| ==> catalog[i].id != ParsedId(param).value)
    ensures v.Found? ==>
              && ParsedId(param) == Some(v.app.id)
              && (exists i :: FirstWithId(catalog, v.app.id, i) && catalog[i] == v.app)
              && (v.isInstalled <==> v.app.id in installed)
  {
    if isLoading then DetailsLoading
    else
      match ParsedId(param)
      case None => NotFound
      case Some(id) =>
        match FindById(catalog, id)
        case None => NotFound
        case Some(app) => Found(app, id in installed)
  }

  /** Both the 404 button and the back link lead to the catalog page; the
      loading indicator has no button. */
  function ExitPath(v: DetailsView): (path: Option<string>)
    ensures path.None? <==> v == DetailsLoading
    ensures path.Some? ==> path.value == "apps"
  {
    if v == DetailsLoading then None else Some("apps")
  }

  /** `handleAction`: uninstall the shown app when it is installed, install
      it otherwise. */
  function DetailsAction(v: DetailsView): (c: Command)
    requires v.Found?
    ensures c.UninstallApp? <==> v.isInstalled
    ensures c.UninstallApp? ==> c.id == v.app.id
    ensures c.InstallApp? <==> !v.isInstalled
    ensures c.InstallApp? ==> c.app == v.app
  {
    if v.isInstalled then UninstallApp(v.app.id) else InstallApp(v.app)
  }

  /** `actionText`. */
  function DetailsLabel(v: DetailsView): (text: string)
    requires v.Found?
    ensures text == "Uninstall" <==> v.isInstalled
    ensures text != "Uninstall" ==> text == "Install Now"
  {
    if v.isInstalled then "Uninstall" else "Install Now"
  }
}

=== FILE: installations.dfy ===
/** The "My Installations" page: the catalog restricted to installed ids. */
module Installations {
  import opened Options
  import opened Seqs
  import opened Catalog
  import opened Card

  /** `appsData.filter(app => installedApps.includes(app.id))`: the catalog
      products whose id is installed, in catalog order, each as often as in
      the catalog. */
  function InstalledApps(catalog: seq<Product>, installed: seq<int>): (r: seq<Product>)
    ensures IsSubseq(r, catalog)
    ensures forall p :: multiset(r)[p] == if p.id in installed then multiset(catalog)[p] else 0
    ensures forall p :: p in r <==> p in catalog && p.id in installed
  {
    if catalog == [] then []
    else
      var rest := InstalledApps(catalog[1..], installed);
      assert catalog == [catalog[0]] + catalog[1..];
      if catalog[0].id in installed then
        assert ([catalog[0]] + rest)[1..] == rest;
        [catalog[0]] + rest
      else
        SubseqSkip(rest, catalog[0], catalog[1..]);
        rest
  }

  /** Only the set of installed ids matters: repeating an id, reordering the
      list, or adding an id no product carries changes nothing on the page. */
  lemma {:induction false} DependsOnIdSet(catalog: seq<Product>, l1: seq<int>, l2: seq<int>)
    requires forall p :: p in catalog ==> (p.id in l1 <==> p.id in l2)
    ensures InstalledApps(catalog, l1) == InstalledApps(catalog, l2)
  {
    if catalog != [] {
      assert catalog[0] in catalog;
      assert forall p :: p in catalog[1..] ==> p in catalog;
      DependsOnIdSet(catalog[1..], l1, l2);
    }
  }

  /** An installed id that no product carries contributes no card. */
  lemma StaleIdIgnored(catalog: seq<Product>, installed: seq<int>, stale: int)
    requires forall p :: p in catalog ==> p.id != stale
    ensures InstalledApps(catalog, installed + [stale]) == InstalledApps(catalog, installed)
  {
    DependsOnIdSet(catalog, installed + [stale], installed);
  }

  /** With distinct catalog ids no card appears twice, even when the
      installed list repeats an id. */
  lemma NoDuplicateCards(catalog: seq<Product>, installed: seq<int>)
    requires UniqueIds(catalog)
    ensures UniqueIds(InstalledApps(catalog, installed))
  {
    var r := InstalledApps(catalog, installed);
    SubseqUniqueIds(r, catalog);
  }

  lemma {:induction false} SubseqUniqueIds(a: seq<Product>, b: seq<Product>)
    requires IsSubseq(a, b) && UniqueIds(b)
    ensures UniqueIds(a)
    decreases |b|
  {
    if a != [] && b != [] {
      assert UniqueIds(b[1..]) by {
        forall i, j | 0 <= i < j < |b[1..]| ensures b[1..][i].id != b[1..][j].id {
          assert b[1..][i] == b[i + 1] && b[1..][j] == b[j + 1];
        }
      }
      if a[0] == b[0] {
        SubseqUniqueIds(a[1..], b[1..]);
        SubseqMembers(a[1..], b[1..]);
        forall i, j | 0 <= i < j < |a| ensures a[i].id != a[j].id {
          if i == 0 {
            assert a[j] == a[1..][j - 1];
            assert a[j] in a[1..];
            assert a[j] in b[1..];
            var k :| 0 <= k < |b[1..]| && b[1..][k] == a[j];
            assert b[k + 1] == a[j];
          } else {
            assert a[i] == a[1..][i - 1] && a[j] == a[1..][j - 1];
          }
        }
      } else {
        SubseqUniqueIds(a, b[1..]);
      }
    }
  }

  datatype InstallationsView =
    | Checking
    | NothingInstalled(message: string)
    | InstalledList(count: nat, cards: seq<CardProps>)

  const NothingInstalledMessage: string := "You haven't installed any apps yet."

  /** The page: the placeholder while loading; otherwise the "haven't
      installed" message for an empty result, or the count and one card per
      installed product, each in installed-page mode. */
  function InstallationsPageView(catalog: seq<Product>, installed: seq<int>, isLoading: bool): (v: InstallationsView)
    ensures isLoading <==> v == Checking
    ensures !isLoading ==> (v.NothingInstalled? <==> InstalledApps(catalog, installed) == [])
    ensures v.NothingInstalled? ==> v.message == NothingInstalledMessage
    ensures v.InstalledList? ==>
              var r := InstalledApps(catalog, installed);
              && v.count == |r| == |v.cards| > 0
              && forall i :: 0 <= i < |r| ==> v.cards[i] == CardProps(r[i], true, Some(true))
  {
    if isLoading then Checking
    else
      var r := InstalledApps(catalog, installed);
      if |r| == 0 then NothingInstalled(NothingInstalledMessage)
      else InstalledList(|r|, seq(|r|, i requires 0 <= i < |r| => CardProps(r[i], true, Some(true))))
  }

  /** Every button on this page uninstalls its own card's app. */
  lemma CardsUninstall(catalog: seq<Product>, installed: seq<int>)
    ensures var v := InstallationsPageView(catalog, installed, false);
            v.InstalledList? ==>
              forall i :: 0 <= i < |v.cards| ==>
                ButtonAction(v.cards[i]) == UninstallApp(v.cards[i].app.id) && !Disabled(v.cards[i])
  {
  }
}

=== FILE: journeys.dfy ===
/** Properties that span several components: a card's link opening the right
    details page, buttons changing the installed list the way their labels
    say, and the navbar badge following the list. */
module Journeys {
  import opened Options
  import opened Text
  import opened Catalog
  import opened Store
  import opened Card
  import opened Listing
  import opened Installations
  import opened Details
  import opened Navbar

  /** Clicking a card opens the details page of that same app: the path the
      card builds is routed to the details page, its parameter parses back to
      the app's id, and the lookup finds the app (catalog ids are distinct). */
  lemma CardOpensItsDetails(catalog: seq<Product>, installed: seq<int>, props: CardProps)
    requires UniqueIds(catalog) && props.app in catalog
    ensures Route(ClickPath(props)) == DetailsPage(Some(IntToString(props.app.id)))
    ensures ParsedId(Route(ClickPath(props)).param) == Some(props.app.id)
    ensures DetailsPageView(Route(ClickPath(props)).param, catalog, installed, false)
            == Found(props.app, props.app.id in installed)
  {
    RouteDetails(IntToString(props.app.id));
    ParseIntOfIntToString(props.app.id, "");
    assert IntToString(props.app.id) + "" == IntToString(props.app.id);
    FindByOwnId(catalog, props.app);
  }

  /** The details button toggles: after its command runs, the same page
      shows the same app with the installed flag flipped. */
  lemma DetailsButtonToggles(s: AppState, catalog: seq<Product>, param: Option<string>)
    requires DetailsPageView(param, catalog, s.installed, false).Found?
    ensures var v := DetailsPageView(param, catalog, s.installed, false);
            var t := Apply(s, catalog, DetailsAction(v));
            DetailsPageView(param, catalog, t.installed, false) == Found(v.app, !v.isInstalled)
  {
  }

  /** Pressing "Get App" on the catalog page installs the app; afterwards
      the card in the same place says "Installed" and is disabled. */
  lemma CatalogCardInstalls(s: AppState, catalog: seq<Product>, term: string, sortBy: string, i: int)
    requires var v := AppsPageView(catalog, s.installed, term, sortBy, false);
             v.body.Grid? && 0 <= i < |v.body.cards| && Label(v.body.cards[i]) == "Get App"
    ensures var v := AppsPageView(catalog, s.installed, term, sortBy, false);
            var t := Apply(s, catalog, ButtonAction(v.body.cards[i]));
            var w := AppsPageView(catalog, t.installed, term, sortBy, false);
            && v.body.cards[i].app.id in t.installed
            && w.body.Grid? && |w.body.cards| == |v.body.cards|
            && w.body.cards[i].app == v.body.cards[i].app
            && Label(w.body.cards[i]) == "Installed" && Disabled(w.body.cards[i])
  {
  }

  /** Pressing "Uninstall" on the installations page removes the app from the
      list and from the page. */
  lemma InstallationsCardUninstalls(s: AppState, catalog: seq<Product>, i: int)
    requires var v := InstallationsPageView(catalog, s.installed, false);
             v.InstalledList? && 0 <= i < |v.cards|
    ensures var v := InstallationsPageView(catalog, s.installed, false);
            var t := Apply(s, catalog, ButtonAction(v.cards[i]));
            && v.cards[i].app.id !in t.installed
            && v.cards[i].app !in InstalledApps(catalog, t.installed)
  {
  }

  /** The installations tab carries a badge exactly when the list is not
      empty, and the badge shows the list's length. */
  lemma BadgeFollowsInstalledList(s: AppState)
    ensures var tab := RenderTab(Tabs[2], s.path, NavbarCount(s));
            && (tab.badge.Some? <==> s.installed != [])
            && (tab.badge.Some? ==> tab.badge.value == |s.installed|)
  {
  }

  /** A worked case: A has 100 downloads, B 500. Installing A lists A's id
      with a success toast naming A; uninstalling it empties the list and
      shows the uninstalled toast naming A. */
  lemma InstallUninstallScenario(a: Product, b: Product)
    requires a.title == "A" && a.downloads == 100 && a.id == 1
    requires b.title == "B" && b.downloads == 500 && b.id == 2
    ensures var s1 := Install(Loaded(Initial, []), a);
            && s1.installed == [1]
            && s1.toast == Toast("A installed successfully!", Success)
            && Uninstall(s1, [a, b], 1).installed == []
            && Uninstall(s1, [a, b], 1).toast == Toast("A uninstalled.", Error)
  {
    var s1 := Install(Loaded(Initial, []), a);
    assert s1.installed == [1];
    assert RemoveAll([1], 1) == RemoveAll([], 1);
  }

  /** A worked case: with an empty search and the `rating` order, the app
      rated 4.5 comes before the app rated 3.0. */
  lemma RatingOrderScenario(a: Product, b: Product)
    requires a.ratingAvg == 3.0 && b.ratingAvg == 4.5
    ensures FilteredAndSorted([a, b], "", "rating") == [b, a]
  {
    EmptyTermKeepsAll([a, b]);
    var r := FilteredAndSorted([a, b], "", "rating");
    assert multiset(r) == multiset([a, b]);
    assert |r| == 2;
    assert r[0] in multiset(r) && r[1] in multiset(r);
  }
}

=== FILE: listing.dfy ===
/** The catalog page: search filter, stable sort by the chosen mode, and the
    count / no-results / card-grid choice. */
module Listing {
  import opened Options
  import opened Seqs
  import opened Text
  import opened Catalog
  import opened Card

  /** The `<select>` values `none`, `high-low`, `low-high` and `rating`. */
  datatype SortMode = CatalogOrder | DownloadsDesc | DownloadsAsc | RatingDesc

  /** Reads the `sortBy` string; any value other than the three sort keys
      leaves the catalog order. */
  function ModeOf(sortBy: string): (m: SortMode)
    ensures m == DownloadsDesc <==> sortBy == "high-low"
    ensures m == DownloadsAsc <==> sortBy == "low-high"
    ensures m == RatingDesc <==> sortBy == "rating"
    ensures m == CatalogOrder <==> sortBy !in {"high-low", "low-high", "rating"}
  {
    match sortBy
    case "high-low" => DownloadsDesc
    case "low-high" => DownloadsAsc
    case "rating" => RatingDesc
    case _ => CatalogOrder
  }

  // ---------------------------------------------------------------------------
  // Filtering
  // ---------------------------------------------------------------------------

  /** The search predicate: the lower-cased term occurs in the lower-cased
      title or in the lower-cased company name. */
  predicate Matches(p: Product, term: string)
  {
    Includes(Lower(p.title), Lower(term)) || Includes(Lower(p.companyName), Lower(term))
  }

  /** `apps.filter(app => Matches(app, term))`: the matching apps, each as
      often as in the input, in input order. */
  function FilterApps(apps: seq<Product>, term: string): (r: seq<Product>)
    ensures IsSubseq(r, apps)
    ensures forall p :: multiset(r)[p] == if Matches(p, term) then multiset(apps)[p] else 0
    ensures forall p :: p in r <==> p in apps && Matches(p, term)
  {
    if apps == [] then []
    else
      var rest := FilterApps(apps[1..], term);
      assert apps == [apps[0]] + apps[1..];
      if Matches(apps[0], term) then
        assert ([apps[0]] + rest)[1..] == rest;
        [apps[0]] + rest
      else
        SubseqSkip(rest, apps[0], apps[1..]);
        rest
  }

  /** An empty search term keeps the whole catalog, in order. */
  lemma {:induction false} EmptyTermKeepsAll(apps: seq<Product>)
    ensures FilterApps(apps, "") == apps
  {
    if apps != [] {
      EmptyIncluded(Lower(apps[0].title));
      assert Lower("") == "";
      EmptyTermKeepsAll(apps[1..]);
      assert apps == [apps[0]] + apps[1..];
    }
  }

  /** The search ignores the case of the term. */
  lemma MatchesIgnoresTermCase(p: Product, term: string)
    ensures Matches(p, term) <==> Matches(p, Lower(term))
  {
    LowerIdempotent(term);
  }

  // ---------------------------------------------------------------------------
  // Stable sorting
  // ---------------------------------------------------------------------------

  /** The value the comparator of `mode` orders by, smallest first:
      `(a, b) => b.downloads - a.downloads` orders by minus the downloads, and
      so on. `CatalogOrder` never sorts; its key is constant. */
  function Key(mode: SortMode, p: Product): real
  {
    match mode
    case DownloadsDesc => -(p.downloads as real)
    case DownloadsAsc => p.downloads as real
    case RatingDesc => -p.ratingAvg
    case CatalogOrder => 0.0
  }

  predicate SortedBy(s: seq<Product>, mode: SortMode)
  {
    forall i, j :: 0 <= i < j < |s| ==> Key(mode, s[i]) <= Key(mode, s[j])
  }

  /** The elements of `s` whose key is `k`, in order. Stability is the
      statement that sorting leaves every such tie group as it was. */
  function WithKey(s: seq<Product>, mode: SortMode, k: real): seq<Product>
  {
    if s == [] then [] else Own(s[0], mode, k) + WithKey(s[1..], mode, k)
  }

  /** `[y]` when `y` has key `k`, else nothing. */
  function Own(y: Product, mode: SortMode, k: real): seq<Product>
  {
    if Key(mode, y) == k then [y] else []
  }

  /** Places `x` before the first element whose key is not smaller, so that
      `x` precedes every element of `s` with an equal key. */
  function Insert(x: Product, s: seq<Product>, mode: SortMode): (r: seq<Product>)
    ensures multiset(r) == multiset(s) + multiset{x}
  {
    if s == [] then [x]
    else if Key(mode, x) <= Key(mode, s[0]) then [x] + s
    else
      assert s == [s[0]] + s[1..];
      [s[0]] + Insert(x, s[1..], mode)
  }

  /** Every key of `Insert(x, s)` is at least `b` when the key of `x` and
      all keys of `s` are. */
  lemma {:induction false} InsertBounded(x: Product, s: seq<Product>, mode: SortMode, b: real)
    requires Key(mode, x) >= b
    requires forall i :: 0 <= i < |s| ==> Key(mode, s[i]) >= b
    ensures forall i :: 0 <= i < |Insert(x, s, mode)| ==> Key(mode, Insert(x, s, mode)[i]) >= b
  {
    if s != [] && Key(mode, x) > Key(mode, s[0]) {
      InsertBounded(x, s[1..], mode, b);
    }
  }

  lemma ConsSorted(y: Product, t: seq<Product>, mode: SortMode)
    requires SortedBy(t, mode)
    requires forall i :: 0 <= i < |t| ==> Key(mode, y) <= Key(mode, t[i])
    ensures SortedBy([y] + t, mode)
  {
    var r := [y] + t;
    forall i, j | 0 <= i < j < |r| ensures Key(mode, r[i]) <= Key(mode, r[j]) {
      assert r[j] == t[j - 1];
      if i > 0 {
        assert r[i] == t[i - 1];
      }
    }
  }

  lemma {:induction false} InsertSorted(x: Product, s: seq<Product>, mode: SortMode)
    requires SortedBy(s, mode)
    ensures SortedBy(Insert(x, s, mode), mode)
  {
    if s == [] {
    } else if Key(mode, x) <= Key(mode, s[0]) {
      ConsSorted(x, s, mode);
    } else {
      var t := s[1..];
      assert SortedBy(t, mode) by {
        forall i, j | 0 <= i < j < |t| ensures Key(mode, t[i]) <= Key(mode, t[j]) {
          assert t[i] == s[i + 1] && t[j] == s[j + 1];
        }
      }
      assert forall i :: 0 <= i < |t| ==> Key(mode, s[0]) <= Key(mode, t[i]) by {
        forall i | 0 <= i < |t| ensures Key(mode, s[0]) <= Key(mode, t[i]) {
          assert t[i] == s[i + 1];
        }
      }
      InsertSorted(x, t, mode);
      InsertBounded(x, t, mode, Key(mode, s[0]));
      ConsSorted(s[0], Insert(x, t, mode), mode);
    }
  }

  lemma WithKeyCons(y: Product, t: seq<Product>, mode: SortMode, k: real)
    ensures WithKey([y] + t, mode, k) == Own(y, mode, k) + WithKey(t, mode, k)
  {
    assert ([y] + t)[1..] == t;
  }

  lemma {:induction false} InsertWithKey(x: Product, s: seq<Product>, mode: SortMode, k: real)
    ensures WithKey(Insert(x, s, mode), mode, k) == Own(x, mode, k) + WithKey(s, mode, k)
  {
    if s == [] {
      WithKeyCons(x, [], mode, k);
    } else if Key(mode, x) <= Key(mode, s[0]) {
      WithKeyCons(x, s, mode, k);
    } else {
      InsertWithKey(x, s[1..], mode, k);
      InsertPastHead(x, s, mode, k);
    }
  }

  /** The step of `InsertWithKey` where `x` goes past the head of `s`. */
  lemma InsertPastHead(x: Product, s: seq<Product>, mode: SortMode, k: real)
    requires s != [] && Key(mode, x) > Key(mode, s[0])
    requires WithKey(Insert(x, s[1..], mode), mode, k) == Own(x, mode, k) + WithKey(s[1..], mode, k)
    ensures WithKey(Insert(x, s, mode), mode, k) == Own(x, mode, k) + WithKey(s, mode, k)
  {
    var rest := Insert(x, s[1..], mode);
    assert Insert(x, s, mode) == [s[0]] + rest;
    WithKeyCons(s[0], rest, mode, k);
    OwnSwap(x, s[0], mode, k, WithKey(s[1..], mode, k));
    WithKeyCons(s[0], s[1..], mode, k);
    assert [s[0]] + s[1..] == s;
  }

  /** Elements with different keys never both land in the same group. */
  lemma OwnSwap(x: Product, y: Product, mode: SortMode, k: real, w: seq<Product>)
    requires Key(mode, x) != Key(mode, y)
    ensures Own(y, mode, k) + (Own(x, mode, k) + w) == Own(x, mode, k) + (Own(y, mode, k) + w)
  {
    if Key(mode, x) == k {
      assert Own(y, mode, k) == [];
    } else {
      assert Own(x, mode, k) == [];
      assert [] + w == w;
    }
  }

  /** `Array.prototype.sort` with the comparator of `mode` (stable, as
      ECMAScript 2019 requires): a permutation of the input, ordered by the
      key, in which every tie group keeps its input order. */
  function SortBy(s: seq<Product>, mode: SortMode): (r: seq<Product>)
    ensures multiset(r) == multiset(s)
    ensures SortedBy(r, mode)
    ensures forall k :: WithKey(r, mode, k) == WithKey(s, mode, k)
  {
    if s == [] then []
    else
      var rest := SortBy(s[1..], mode);
      var r := Insert(s[0], rest, mode);
      InsertSorted(s[0], rest, mode);
      assert s == [s[0]] + s[1..];
      forall k ensures WithKey(r, mode, k) == WithKey(s, mode, k) {
        InsertWithKey(s[0], rest, mode, k);
      }
      r
  }

  // ---------------------------------------------------------------------------
  // Reversal: descending by downloads against ascending by downloads
  // ---------------------------------------------------------------------------

  function Reverse(s: seq<Product>): (r: seq<Product>)
    ensures |r| == |s|
    ensures forall i :: 0 <= i < |s| ==> r[i] == s[|s| - 1 - i]
  {
    if s == [] then [] else Reverse(s[1..]) + [s[0]]
  }

  lemma {:induction false} WithKeyMembers(s: seq<Product>, mode: SortMode, k: real)
    ensures forall y :: y in WithKey(s, mode, k) <==> y in s && Key(mode, y) == k
  {
    if s != [] {
      WithKeyMembers(s[1..], mode, k);
      assert s == [s[0]] + s[1..];
    }
  }

  lemma {:induction false} WithKeyNone(s: seq<Product>, mode: SortMode, k: real)
    requires forall y :: y in s ==> Key(mode, y) != k
    ensures WithKey(s, mode, k) == []
  {
    if s != [] {
      WithKeyNone(s[1..], mode, k);
    }
  }

  /** The first element of a sequence opens the tie group of its key. */
  lemma WithKeyHead(s: seq<Product>, mode: SortMode)
    requires s != []
    ensures WithKey(s, mode, Key(mode, s[0])) != []
    ensures WithKey(s, mode, Key(mode, s[0]))[0] == s[0]
  {
  }

  /** Removing the same first element from two sequences with the same tie
      groups leaves tails with the same tie groups. */
  lemma SameGroupsTail(a: seq<Product>, b: seq<Product>, mode: SortMode)
    requires a != [] && b != [] && a[0] == b[0]
    requires forall k :: WithKey(a, mode, k) == WithKey(b, mode, k)
    ensures forall k :: WithKey(a[1..], mode, k) == WithKey(b[1..], mode, k)
  {
    forall k ensures WithKey(a[1..], mode, k) == WithKey(b[1..], mode, k) {
      var h := if Key(mode, a[0]) == k then [a[0]] else [];
      assert WithKey(a, mode, k) == h + WithKey(a[1..], mode, k);
      assert WithKey(b, mode, k) == h + WithKey(b[1..], mode, k);
      assert WithKey(a[1..], mode, k) == (h + WithKey(a[1..], mode, k))[|h|..];
      assert WithKey(b[1..], mode, k) == (h + WithKey(b[1..], mode, k))[|h|..];
    }
  }

  /** The first element is a minimum of a sorted sequence. */
  lemma SortedHeadMin(s: seq<Product>, mode: SortMode, y: Product)
    requires SortedBy(s, mode) && s != [] && y in s
    ensures Key(mode, s[0]) <= Key(mode, y)
  {
  }

  lemma SortedTail(s: seq<Product>, mode: SortMode)
    requires SortedBy(s, mode) && s != []
    ensures SortedBy(s[1..], mode)
  {
    forall i, j | 0 <= i < j < |s[1..]| ensures Key(mode, s[1..][i]) <= Key(mode, s[1..][j]) {
      assert s[1..][i] == s[i + 1] && s[1..][j] == s[j + 1];
    }
  }

  /** A key-ordered sequence is determined by its tie groups: two sorted
      sequences with the same group for every key are equal. */
  lemma {:induction false} SortedUnique(a: seq<Product>, b: seq<Product>, mode: SortMode)
    requires SortedBy(a, mode) && SortedBy(b, mode)
    requires forall k :: WithKey(a, mode, k) == WithKey(b, mode, k)
    ensures a == b
    decreases |a|
  {
    if a != [] {
      WithKeyHead(a, mode);
    }
    if b != [] {
      WithKeyHead(b, mode);
    }
    if a != [] && b != [] {
      var ka, kb := Key(mode, a[0]), Key(mode, b[0]);
      WithKeyMembers(a, mode, kb);
      WithKeyMembers(b, mode, ka);
      assert b[0] in WithKey(a, mode, kb);
      assert a[0] in WithKey(b, mode, ka);
      SortedHeadMin(a, mode, b[0]);
      SortedHeadMin(b, mode, a[0]);
      assert a[0] == b[0];
      SameGroupsTail(a, b, mode);
      SortedTail(a, mode);
      SortedTail(b, mode);
      SortedUnique(a[1..], b[1..], mode);
      assert a == [a[0]] + a[1..] && b == [b[0]] + b[1..];
    }
  }

  lemma {:induction false} WithKeyConcat(a: seq<Product>, b: seq<Product>, mode: SortMode, k: real)
    ensures WithKey(a + b, mode, k) == WithKey(a, mode, k) + WithKey(b, mode, k)
  {
    if a == [] {
      assert a + b == b;
    } else {
      var t := a[1..] + b;
      assert a + b == [a[0]] + t;
      assert a == [a[0]] + a[1..];
      WithKeyCons(a[0], t, mode, k);
      WithKeyConcat(a[1..], b, mode, k);
      WithKeyCons(a[0], a[1..], mode, k);
    }
  }

  lemma {:induction false} WithKeyReverse(s: seq<Product>, mode: SortMode, k: real)
    ensures WithKey(Reverse(s), mode, k) == Reverse(WithKey(s, mode, k))
  {
    if s != [] {
      WithKeyReverse(s[1..], mode, k);
      WithKeyConcat(Reverse(s[1..]), [s[0]], mode, k);
      WithKeyCons(s[0], [], mode, k);
      var h := if Key(mode, s[0]) == k then [s[0]] else [];
      var w := WithKey(s[1..], mode, k);
      assert Reverse(h + w) == Reverse(w) + h by {
        RevConcat(h, w);
      }
    }
  }

  lemma {:induction false} RevConcat(a: seq<Product>, b: seq<Product>)
    ensures Reverse(a + b) == Reverse(b) + Reverse(a)
  {
    var l, r := Reverse(a + b), Reverse(b) + Reverse(a);
    assert |l| == |r|;
    forall i | 0 <= i < |l| ensures l[i] == r[i] {
      if i < |b| {
        assert r[i] == Reverse(b)[i];
      } else {
        assert r[i] == Reverse(a)[i - |b|];
      }
    }
  }

  /** No two products of `s` have the same download count. */
  predicate DistinctDownloads(s: seq<Product>)
  {
    forall i, j :: 0 <= i < j < |s| ==> s[i].downloads != s[j].downloads
  }

  lemma {:induction false} DistinctGroupsSmall(s: seq<Product>, k: real)
    requires DistinctDownloads(s)
    ensures |WithKey(s, DownloadsAsc, k)| <= 1
  {
    if s != [] {
      assert s == [s[0]] + s[1..];
      assert DistinctDownloads(s[1..]) by {
        forall i, j | 0 <= i < j < |s[1..]| ensures s[1..][i].downloads != s[1..][j].downloads {
          assert s[1..][i] == s[i + 1] && s[1..][j] == s[j + 1];
        }
      }
      DistinctGroupsSmall(s[1..], k);
      WithKeyCons(s[0], s[1..], DownloadsAsc, k);
      if Key(DownloadsAsc, s[0]) == k {
        WithKeyMembers(s[1..], DownloadsAsc, k);
        forall y | y in s[1..] ensures Key(DownloadsAsc, y) != k {
          var j :| 0 <= j < |s[1..]| && s[1..][j] == y;
          assert s[j + 1] == y;
        }
        WithKeyNone(s[1..], DownloadsAsc, k);
      }
    }
  }

  lemma {:induction false} DescGroupsAreAscGroups(s: seq<Product>, k: real)
    ensures WithKey(s, DownloadsDesc, k) == WithKey(s, DownloadsAsc, -k)
  {
    if s != [] {
      DescGroupsAreAscGroups(s[1..], k);
    }
  }

  /** An ascending arrangement read backwards is descending. */
  lemma ReverseSortedDesc(asc: seq<Product>)
    requires SortedBy(asc, DownloadsAsc)
    ensures SortedBy(Reverse(asc), DownloadsDesc)
  {
    var rev := Reverse(asc);
    forall i, j | 0 <= i < j < |rev| ensures Key(DownloadsDesc, rev[i]) <= Key(DownloadsDesc, rev[j]) {
      assert rev[i] == asc[|asc| - 1 - i] && rev[j] == asc[|asc| - 1 - j];
    }
  }

  /** Reading an ascending arrangement of `f` backwards leaves each
      descending tie group of `f` as it is, because with distinct counts every
      group has at most one element. */
  lemma ReverseKeepsGroups(asc: seq<Product>, f: seq<Product>, k: real)
    requires DistinctDownloads(f)
    requires WithKey(asc, DownloadsAsc, -k) == WithKey(f, DownloadsAsc, -k)
    ensures WithKey(Reverse(asc), DownloadsDesc, k) == WithKey(f, DownloadsDesc, k)
  {
    var g := WithKey(f, DownloadsAsc, -k);
    DistinctGroupsSmall(f, -k);
    calc {
      WithKey(Reverse(asc), DownloadsDesc, k);
      { WithKeyReverse(asc, DownloadsDesc, k); }
      Reverse(WithKey(asc, DownloadsDesc, k));
      { DescGroupsAreAscGroups(asc, k); }
      Reverse(g);
      { ShortReverse(g); }
      g;
      { DescGroupsAreAscGroups(f, k); }
      WithKey(f, DownloadsDesc, k);
    }
  }

  lemma ShortReverse(g: seq<Product>)
    requires |g| <= 1
    ensures Reverse(g) == g
  {
  }

  /** Ordering by downloads high-to-low is ordering low-to-high read
      backwards, provided no two download counts are equal; with ties the
      stable sort keeps each tie group in catalog order in both directions,
      so reversal would not match. */
  lemma DescIsReversedAsc(f: seq<Product>)
    requires DistinctDownloads(f)
    ensures SortBy(f, DownloadsDesc) == Reverse(SortBy(f, DownloadsAsc))
  {
    var asc := SortBy(f, DownloadsAsc);
    var desc := SortBy(f, DownloadsDesc);
    ReverseSortedDesc(asc);
    forall k ensures WithKey(Reverse(asc), DownloadsDesc, k) == WithKey(desc, DownloadsDesc, k) {
      ReverseKeepsGroups(asc, f, k);
    }
    SortedUnique(Reverse(asc), desc, DownloadsDesc);
  }

  /** Without distinct counts the reversal fails: two different apps with the
      same downloads keep catalog order under both sorts, so one sort is not
      the other read backwards. */
  lemma TiesDefeatReversal(a: Product, b: Product)
    requires a != b && a.downloads == b.downloads
    ensures SortBy([a, b], DownloadsDesc) == [a, b]
    ensures Reverse(SortBy([a, b], DownloadsAsc)) == [b, a]
    ensures SortBy([a, b], DownloadsDesc) != Reverse(SortBy([a, b], DownloadsAsc))
  {
  }

  // ---------------------------------------------------------------------------
  // The page's result
  // ---------------------------------------------------------------------------

  /** `filteredAndSortedApps`: the filtered catalog, copied, then sorted by
      the mode `sortBy` names (catalog order for `none` and unknown keys). */
  function FilteredAndSorted(catalog: seq<Product>, term: string, sortBy: string): (r: seq<Product>)
    ensures multiset(r) == multiset(FilterApps(catalog, term))
    ensures forall p :: p in r <==> p in catalog && Matches(p, term)
    ensures ModeOf(sortBy) == CatalogOrder ==> r == FilterApps(catalog, term)
    ensures ModeOf(sortBy) == DownloadsDesc ==>
              forall i, j :: 0 <= i < j < |r| ==> r[i].downloads >= r[j].downloads
    ensures ModeOf(sortBy) == DownloadsAsc ==>
              forall i, j :: 0 <= i < j < |r| ==> r[i].downloads <= r[j].downloads
    ensures ModeOf(sortBy) == RatingDesc ==>
              forall i, j :: 0 <= i < j < |r| ==> r[i].ratingAvg >= r[j].ratingAvg
    ensures forall k :: WithKey(r, ModeOf(sortBy), k) == WithKey(FilterApps(catalog, term), ModeOf(sortBy), k)
  {
    var filtered := FilterApps(catalog, term);
    var mode := ModeOf(sortBy);
    var r := if mode == CatalogOrder then filtered else SortBy(filtered, mode);
    assert forall p :: p in r <==> p in multiset(filtered);
    r
  }

  /** The page body: the loading indicator, or the total followed by either
      the no-results panel or the grid of cards. */
  datatype AppsBody = NoResults | Grid(cards: seq<CardProps>)

  datatype AppsView = AppsLoading | AppsListing(total: nat, body: AppsBody)

  /** The apps page: a card per result, in result order, marked installed
      when its id is in the list, without the installed-page flag. */
  function AppsPageView(catalog: seq<Product>, installed: seq<int>, term: string, sortBy: string,
                        isLoading: bool): (v: AppsView)
    ensures v == AppsLoading <==> isLoading
    ensures !isLoading ==> v.total == |FilteredAndSorted(catalog, term, sortBy)|
    ensures !isLoading ==> (v.body == NoResults <==> FilteredAndSorted(catalog, term, sortBy) == [])
    ensures !isLoading && v.body.Grid? ==>
              var r := FilteredAndSorted(catalog, term, sortBy);
              && |v.body.cards| == |r|
              && forall i :: 0 <= i < |r| ==>
                   v.body.cards[i] == CardProps(r[i], r[i].id in installed, None)
  {
    if isLoading then AppsLoading
    else
      var r := FilteredAndSorted(catalog, term, sortBy);
      AppsListing(|r|,
        if |r| == 0 then NoResults
        else Grid(seq(|r|, i requires 0 <= i < |r| => CardProps(r[i], r[i].id in installed, None))))
  }

  // ---------------------------------------------------------------------------
  // The searching flag
  // ---------------------------------------------------------------------------

  /** The searching flag right after the term changes: the effect sets it for
      a non-empty term and clears it for the empty one. The 500 ms timer that
      clears it again later is left out. */
  function SearchingAfterEdit(term: string): (b: bool)
    ensures b <==> |term| > 0
  {
    term != ""
  }

  /** The outcome of a render: it throws, or it shows a view. */
  datatype RenderOutcome = Throws | Shows(view: AppsView)

  /** The render as the code is written: while the searching flag is set, the
      page draws a `Loader` spinner, a name this page never imports, so the
      render throws a ReferenceError. Otherwise it shows `AppsPageView`. */
  function AppsRenderAsWritten(catalog: seq<Product>, installed: seq<int>, term: string, sortBy: string,
                               isLoading: bool, isSearching: bool): (r: RenderOutcome)
    ensures r == Throws <==> !isLoading && isSearching
    ensures r.Shows? ==> r.view == AppsPageView(catalog, installed, term, sortBy, isLoading)
  {
    if !isLoading && isSearching then Throws
    else Shows(AppsPageView(catalog, installed, term, sortBy, isLoading))
  }

  /** Typing any non-empty search term makes the next render throw. */
  lemma SearchingRenderThrows(catalog: seq<Product>, installed: seq<int>, term: string, sortBy: string)
    requires term != ""
    ensures AppsRenderAsWritten(catalog, installed, term, sortBy, false, SearchingAfterEdit(term)) == Throws
  {
  }

  /** The page with the spinner drawn as evidently intended: the listing view
      together with whether the spinner beside the search field is shown. */
  datatype AppsScreen = AppsScreen(view: AppsView, spinner: bool)

  function AppsRender(catalog: seq<Product>, installed: seq<int>, term: string, sortBy: string,
                      isLoading: bool, isSearching: bool): (r: AppsScreen)
    ensures r.spinner <==> !isLoading && isSearching
    ensures r.view == AppsLoading <==> isLoading
    ensures r.view == AppsPageView(catalog, installed, term, sortBy, isLoading)
  {
    AppsScreen(AppsPageView(catalog, installed, term, sortBy, isLoading), !isLoading && isSearching)
  }

  /** With the spinner drawn, searching never breaks the page: the flag only
      adds the spinner, and the count and the cards are those of the listing
      without it, on every term. */
  lemma SearchSpinnerKeepsListing(catalog: seq<Product>, installed: seq<int>, term: string, sortBy: string)
    ensures var on := AppsRender(catalog, installed, term, sortBy, false, SearchingAfterEdit(term));
            var off := AppsRender(catalog, installed, term, sortBy, false, false);
            && on.view == off.view
            && on.view == AppsPageView(catalog, installed, term, sortBy, false)
            && on.view.AppsListing?
            && on.view.total == |FilteredAndSorted(catalog, term, sortBy)|
            && (on.spinner <==> term != "")
  {
  }
}

=== FILE: navbar.dfy ===
/** The navigation bar: tab highlighting, the installed-count badge and the
    mobile menu's open/closed state. */
module Navbar {
  import opened Options
  import opened Text

  datatype NavTab = NavTab(target: string, caption: string, showCount: bool)

  /** The three tabs, drawn both in the desktop bar and in the mobile menu;
      only the installations tab carries the count. */
  const Tabs: seq<NavTab> := [
    NavTab("home", "Home", false),
    NavTab("apps", "Apps", false),
    NavTab("myinstall", "My Installation", true)
  ]

  /** `currentPath.startsWith(targetPath)`. */
  predicate IsActive(currentPath: string, target: string)
  {
    StartsWith(currentPath, target)
  }

  /** `showCount && installedCount > 0`. */
  predicate ShowsBadge(tab: NavTab, installedCount: int)
  {
    tab.showCount && installedCount > 0
  }

  /** What a tab button shows: its caption, whether it is highlighted, and the
      badge number when there is one. */
  datatype TabView = TabView(caption: string, active: bool, badge: Option<int>)

  function RenderTab(tab: NavTab, currentPath: string, installedCount: int): (v: TabView)
    ensures v.caption == tab.caption
    ensures v.active <==> StartsWith(currentPath, tab.target)
    ensures v.badge.Some? <==> tab.showCount && installedCount > 0
    ensures v.badge.Some? ==> v.badge.value == installedCount
  {
    TabView(tab.caption, IsActive(currentPath, tab.target),
            if ShowsBadge(tab, installedCount) then Some(installedCount) else None)
  }

  /** The mobile menu: rendered, with all three tabs, only while open. */
  function MobileMenu(isOpen: bool, currentPath: string, installedCount: int): (vs: seq<TabView>)
    ensures vs == [] <==> !isOpen
    ensures isOpen ==>
              && |vs| == |Tabs|
              && forall i :: 0 <= i < |Tabs| ==> vs[i] == RenderTab(Tabs[i], currentPath, installedCount)
  {
    if isOpen then
      seq(|Tabs|, i requires 0 <= i < |Tabs| => RenderTab(Tabs[i], currentPath, installedCount))
    else []
  }

  /** The clicks the bar reacts to. */
  datatype NavEvent = ToggleMenu | ClickTab(target: string) | ClickLogo | ClickMobileContribute

  /** The menu state after a click and the path the click asks to go to. */
  datatype NavStep = NavStep(isOpen: bool, navigateTo: Option<string>)

  /** The hamburger flips the menu; a tab navigates to its target and closes
      the menu; the logo goes home and leaves the menu as it was; the mobile
      "Contribute" link (an external page) only closes the menu. */
  function Step(isOpen: bool, e: NavEvent): (r: NavStep)
    ensures e == ToggleMenu ==> r.isOpen == !isOpen && r.navigateTo.None?
    ensures e.ClickTab? ==> !r.isOpen && r.navigateTo == Some(e.target)
    ensures e == ClickLogo ==> r.isOpen == isOpen && r.navigateTo == Some("home")
    ensures e == ClickMobileContribute ==> !r.isOpen && r.navigateTo.None?
  {
    match e
    case ToggleMenu => NavStep(!isOpen, None)
    case ClickTab(target) => NavStep(false, Some(target))
    case ClickLogo => NavStep(isOpen, Some("home"))
    case ClickMobileContribute => NavStep(false, None)
  }

  /** Two toggles restore the menu. */
  lemma ToggleTwice(isOpen: bool)
    ensures Step(Step(isOpen, ToggleMenu).isOpen, ToggleMenu).isOpen == isOpen
  {
  }

  /** After any tab click the mobile menu is gone. */
  lemma TabClickHidesMenu(isOpen: bool, target: string, currentPath: string, installedCount: int)
    ensures MobileMenu(Step(isOpen, ClickTab(target)).isOpen, currentPath, installedCount) == []
  {
  }

  /** On its own path each tab is the one highlighted tab. */
  lemma OwnPathActivatesOnlyOwnTab()
    ensures forall t, u :: 0 <= t < |Tabs| && 0 <= u < |Tabs| ==>
              (IsActive(Tabs[t].target, Tabs[u].target) <==> t == u)
  {
    FirstCharDiffers("home", "apps");
    FirstCharDiffers("apps", "home");
    FirstCharDiffers("myinstall", "home");
    FirstCharDiffers("myinstall", "apps");
  }

  lemma FirstCharDiffers(s: string, p: string)
    requires |s| > 0 && |p| > 0 && s[0] != p[0]
    ensures !StartsWith(s, p)
  {
    if |p| <= |s| {
      assert s[..|p|][0] == s[0];
    }
  }

  /** A details path highlights no tab. */
  lemma DetailsActivatesNoTab(rest: string)
    ensures forall t :: 0 <= t < |Tabs| ==> !IsActive("details/" + rest, Tabs[t].target)
  {
    var p := "details/" + rest;
    assert p[0] == 'd';
  }

  /** The badge appears on the installations tab alone, and there exactly
      when something is installed. */
  lemma BadgeOnlyOnInstallations(installedCount: nat)
    ensures forall t :: 0 <= t < |Tabs| ==>
              (ShowsBadge(Tabs[t], installedCount) <==> Tabs[t].target == "myinstall" && installedCount > 0)
  {
  }
}

=== FILE: options.dfy ===
/** The optional value used wherever the program reads `undefined` or `NaN`. */
module Options {

  /** `None` stands for JavaScript's `undefined` (a missing array element or a
      failed `find`) and for `NaN` (a failed `parseInt`). */
  datatype Option<+T> = None | Some(value: T)
}

=== FILE: seqs.dfy ===
/** Generic facts about sequences shared by the list-shaped parts of the model. */
module Seqs {

  /** `a` is obtained from `b` by deleting elements, keeping the order of the rest. */
  predicate IsSubseq<T(==)>(a: seq<T>, b: seq<T>)
    decreases |b|
  {
    if a == [] then true
    else if b == [] then false
    else if a[0] == b[0] then IsSubseq(a[1..], b[1..])
    else IsSubseq(a, b[1..])
  }

  /** No element occurs twice. */
  predicate NoDup<T(==)>(s: seq<T>)
  {
    forall i, j :: 0 <= i < j < |s| ==> s[i] != s[j]
  }

  /** Every element of a subsequence is an element of the whole. */
  lemma {:induction false} SubseqMembers<T>(a: seq<T>, b: seq<T>)
    requires IsSubseq(a, b)
    ensures forall x :: x in a ==> x in b
    decreases |b|
  {
    if a != [] && b != [] {
      if a[0] == b[0] {
        SubseqMembers(a[1..], b[1..]);
        assert a == [a[0]] + a[1..];
      } else {
        SubseqMembers(a, b[1..]);
      }
    }
  }

  /** Dropping the first element of the whole keeps the relation when that
      element is not needed. */
  lemma {:induction false} SubseqSkip<T>(a: seq<T>, x: T, b: seq<T>)
    requires IsSubseq(a, b)
    ensures IsSubseq(a, [x] + b)
    decreases |b| + 1, 0
  {
    var xb := [x] + b;
    assert xb[1..] == b;
    if a != [] && a[0] == x {
      SubseqTail(a, b);
    }
  }

  /** A subsequence stays one after its first element is dropped. */
  lemma {:induction false} SubseqTail<T>(a: seq<T>, b: seq<T>)
    requires a != [] && IsSubseq(a, b)
    ensures IsSubseq(a[1..], b)
    decreases |b|, 1
  {
    if a[0] == b[0] {
      SubseqSkip(a[1..], b[0], b[1..]);
      assert [b[0]] + b[1..] == b;
    } else {
      SubseqTail(a, b[1..]);
      SubseqSkip(a[1..], b[0], b[1..]);
      assert [b[0]] + b[1..] == b;
    }
  }

  /** A subsequence of a duplicate-free sequence is duplicate-free. */
  lemma {:induction false} SubseqNoDup<T>(a: seq<T>, b: seq<T>)
    requires IsSubseq(a, b) && NoDup(b)
    ensures NoDup(a)
    decreases |b|
  {
    if a != [] && b != [] {
      assert NoDup(b[1..]) by {
        forall i, j | 0 <= i < j < |b[1..]| ensures b[1..][i] != b[1..][j] {
          assert b[1..][i] == b[i + 1] && b[1..][j] == b[j + 1];
        }
      }
      if a[0] == b[0] {
        SubseqNoDup(a[1..], b[1..]);
        SubseqMembers(a[1..], b[1..]);
        assert a == [a[0]] + a[1..];
        forall i, j | 0 <= i < j < |a| ensures a[i] != a[j] {
          if i == 0 {
            assert a[j] == a[1..][j - 1];
            assert a[j] in b[1..];
            var k :| 0 <= k < |b[1..]| && b[1..][k] == a[j];
            assert b[k + 1] == a[j];
          } else {
            assert a[i] == a[1..][i - 1] && a[j] == a[1..][j - 1];
          }
        }
      } else {
        SubseqNoDup(a, b[1..]);
      }
    }
  }
}

=== FILE: store.dfy ===
/** The application shell: the installed-id list, the toast, the current path,
    the install/uninstall handlers and the page dispatch on the path. */
module Store {
  import opened Options
  import opened Seqs
  import opened Text
  import opened Catalog

  /** The toast `type`: `''` before any message, `'success'` or `'error'`. */
  datatype ToastKind = Blank | Success | Error

  datatype Toast = Toast(message: string, kind: ToastKind)

  const NoToast: Toast := Toast("", Blank)

  /** Everything the shell keeps in component state. */
  datatype AppState = AppState(path: string, installed: seq<int>, toast: Toast, isLoading: bool)

  /** Path `home`, nothing installed, no toast, still loading. */
  const Initial: AppState := AppState("home", [], NoToast, true)

  function InstalledMessage(title: string): string { title + " installed successfully!" }

  function UninstalledMessage(title: string): string { title + " uninstalled." }

  /** The end of the initial load: the ids read from storage (passed in, as
      reading storage is outside the model) become the list, loading ends. */
  function Loaded(s: AppState, stored: seq<int>): (t: AppState)
    ensures t.installed == stored && !t.isLoading
    ensures t.path == s.path && t.toast == s.toast
  {
    s.(installed := stored, isLoading := false)
  }

  function Navigate(s: AppState, path: string): (t: AppState)
    ensures t.path == path
    ensures t.installed == s.installed && t.toast == s.toast && t.isLoading == s.isLoading
  {
    s.(path := path)
  }

  // ---------------------------------------------------------------------------
  // Install / uninstall
  // ---------------------------------------------------------------------------

  /** `handleInstall(app)`: an absent id is appended at the end and a success
      toast names the app; a present id changes nothing at all. */
  function Install(s: AppState, app: Product): (t: AppState)
    ensures app.id in t.installed
    ensures app.id in s.installed ==> t == s
    ensures app.id !in s.installed ==>
              && |t.installed| == |s.installed| + 1
              && t.installed[..|s.installed|] == s.installed
              && t.installed[|s.installed|] == app.id
              && t.toast == Toast(InstalledMessage(app.title), Success)
    ensures t.path == s.path && t.isLoading == s.isLoading
  {
    if app.id !in s.installed then
      s.(installed := s.installed + [app.id],
         toast := Toast(InstalledMessage(app.title), Success))
    else s
  }

  /** `ids.filter(x => x !== id)`: every occurrence of `id` is gone, the other
      ids keep their order and their number of occurrences. */
  function RemoveAll(ids: seq<int>, id: int): (r: seq<int>)
    ensures id !in r
    ensures IsSubseq(r, ids)
    ensures forall x :: x != id ==> multiset(r)[x] == multiset(ids)[x]
  {
    if ids == [] then []
    else
      var rest := RemoveAll(ids[1..], id);
      assert ids == [ids[0]] + ids[1..];
      if ids[0] == id then
        SubseqSkip(rest, ids[0], ids[1..]);
        rest
      else
        assert ([ids[0]] + rest)[1..] == rest;
        [ids[0]] + rest
  }

  /** `handleUninstall(id)`: the id is filtered out of the list, and the
      "uninstalled" toast is set whenever the catalog has a product with that
      id, whether or not it was installed; otherwise the toast stays. */
  function Uninstall(s: AppState, catalog: seq<Product>, id: int): (t: AppState)
    ensures t.installed == RemoveAll(s.installed, id)
    ensures FindById(catalog, id).Some? ==>
              t.toast == Toast(UninstalledMessage(FindById(catalog, id).value.title), Error)
    ensures FindById(catalog, id).None? ==> t.toast == s.toast
    ensures t.path == s.path && t.isLoading == s.isLoading
  {
    var s' := s.(installed := RemoveAll(s.installed, id));
    match FindById(catalog, id)
    case Some(app) => s'.(toast := Toast(UninstalledMessage(app.title), Error))
    case None => s'
  }

  /** Runs a callback request coming from a page. */
  function Apply(s: AppState, catalog: seq<Product>, cmd: Command): AppState
  {
    match cmd
    case InstallApp(app) => Install(s, app)
    case UninstallApp(id) => Uninstall(s, catalog, id)
    case NoCommand => s
  }

  /** Installing twice is installing once. */
  lemma InstallIdempotent(s: AppState, app: Product)
    ensures Install(Install(s, app), app) == Install(s, app)
    ensures |Install(Install(s, app), app).installed| == |Install(s, app).installed|
  {
  }

  lemma {:induction false} NoDupAppend(l: seq<int>, x: int)
    requires NoDup(l) && x !in l
    ensures NoDup(l + [x])
  {
    var m := l + [x];
    forall i, j | 0 <= i < j < |m| ensures m[i] != m[j] {
      if j == |l| {
        assert m[i] == l[i];
      } else {
        assert m[i] == l[i] && m[j] == l[j];
      }
    }
  }

  /** One install keeps the installed list free of repeated ids. */
  lemma InstallKeepsNoDup(s: AppState, app: Product)
    requires NoDup(s.installed)
    ensures NoDup(Install(s, app).installed)
  {
    if app.id !in s.installed {
      NoDupAppend(s.installed, app.id);
    }
  }

  lemma UninstallKeepsNoDup(s: AppState, catalog: seq<Product>, id: int)
    requires NoDup(s.installed)
    ensures NoDup(Uninstall(s, catalog, id).installed)
  {
    SubseqNoDup(RemoveAll(s.installed, id), s.installed);
  }

  /** The state after a run of button commands, one after another. */
  function Run(s: AppState, catalog: seq<Product>, cmds: seq<Command>): AppState
    decreases |cmds|
  {
    if cmds == [] then s else Run(Apply(s, catalog, cmds[0]), catalog, cmds[1..])
  }

  /** The installed list never holds an id twice, starting from a list that
      does not, whatever sequence of installs and uninstalls runs. */
  lemma {:induction false} RunKeepsNoDup(s: AppState, catalog: seq<Product>, cmds: seq<Command>)
    requires NoDup(s.installed)
    ensures NoDup(Run(s, catalog, cmds).installed)
    decreases |cmds|
  {
    if cmds != [] {
      match cmds[0] {
        case InstallApp(app) => InstallKeepsNoDup(s, app);
        case UninstallApp(id) => UninstallKeepsNoDup(s, catalog, id);
        case NoCommand =>
      }
      RunKeepsNoDup(Apply(s, catalog, cmds[0]), catalog, cmds[1..]);
    }
  }

  lemma {:induction false} RemoveAbsent(l: seq<int>, x: int)
    requires x !in l
    ensures RemoveAll(l, x) == l
  {
    if l != [] {
      RemoveAbsent(l[1..], x);
      assert l == [l[0]] + l[1..];
    }
  }

  lemma {:induction false} RemoveLast(l: seq<int>, x: int)
    requires x !in l
    ensures RemoveAll(l + [x], x) == l
  {
    if l == [] {
      assert ([x])[1..] == [];
    } else {
      assert (l + [x])[1..] == l[1..] + [x];
      RemoveLast(l[1..], x);
      assert l == [l[0]] + l[1..];
    }
  }

  /** Installing an app that is not installed and then uninstalling it gives
      the original list back. */
  lemma InstallThenUninstall(s: AppState, catalog: seq<Product>, app: Product)
    requires app.id !in s.installed
    ensures Uninstall(Install(s, app), catalog, app.id).installed == s.installed
  {
    RemoveLast(s.installed, app.id);
  }

  /** Uninstalling an id that was never installed keeps the list, yet still
      shows the "uninstalled" toast when the catalog knows the id. */
  lemma UninstallAbsent(s: AppState, catalog: seq<Product>, p: Product)
    requires p.id !in s.installed
    requires UniqueIds(catalog) && p in catalog
    ensures Uninstall(s, catalog, p.id).installed == s.installed
    ensures Uninstall(s, catalog, p.id).toast == Toast(UninstalledMessage(p.title), Error)
  {
    RemoveAbsent(s.installed, p.id);
    FindByOwnId(catalog, p);
  }

  /** Every installed id names a catalog product. */
  ghost predicate InstalledInCatalog(s: AppState, catalog: seq<Product>)
  {
    forall x :: x in s.installed ==> FindById(catalog, x).Some?
  }

  /** Installs of catalog products and any uninstall keep every installed id
      pointing into the catalog. */
  lemma ApplyKeepsInstalledInCatalog(s: AppState, catalog: seq<Product>, cmd: Command)
    requires InstalledInCatalog(s, catalog)
    requires cmd.InstallApp? ==> cmd.app in catalog
    ensures InstalledInCatalog(Apply(s, catalog, cmd), catalog)
  {
    match cmd
    case InstallApp(app) =>
      var k :| 0 <= k < |catalog| && catalog[k] == app;
      assert FindById(catalog, app.id).Some?;
    case UninstallApp(id) =>
      SubseqMembers(RemoveAll(s.installed, id), s.installed);
    case NoCommand =>
  }

  // ---------------------------------------------------------------------------
  // Page dispatch
  // ---------------------------------------------------------------------------

  /** The page `renderPage` draws; the details page receives the raw second
      path segment, `None` when the path has none. */
  datatype Page = HomePage | AppsPage | DetailsPage(param: Option<string>) | InstallationsPage

  /** `renderPage`: split the path on `/`, switch on the first segment. */
  function Route(path: string): Page
  {
    var parts := Split(path, '/');
    match parts[0]
    case "apps" => AppsPage
    case "details" => DetailsPage(if |parts| >= 2 then Some(parts[1]) else None)
    case "myinstall" => InstallationsPage
    case _ => HomePage
  }

  /** The text before the first `/`. */
  function FirstSegment(path: string): string { TakeUntil(path, '/') }

  /** The text between the first and second `/`, if there is a first one. */
  function SecondSegment(path: string): Option<string>
  {
    var k := |TakeUntil(path, '/')|;
    if k < |path| then Some(TakeUntil(path[k + 1..], '/')) else None
  }

  /** The dispatch stated on the path's characters: `apps`, `details` and
      `myinstall` as first segment select their pages, the details page gets
      the second segment, and every other first segment, the empty one
      included, selects the home page. */
  lemma RouteBySegment(path: string)
    ensures Route(path) == AppsPage <==> FirstSegment(path) == "apps"
    ensures Route(path) == InstallationsPage <==> FirstSegment(path) == "myinstall"
    ensures Route(path).DetailsPage? <==> FirstSegment(path) == "details"
    ensures Route(path).DetailsPage? ==> Route(path).param == SecondSegment(path)
    ensures Route(path) == HomePage <==>
              FirstSegment(path) !in {"apps", "details", "myinstall"}
  {
    SplitSegments(path, '/');
  }

  /** A path built as `details/<text>` reaches the details page with that text
      as its parameter, as long as the text has no `/`. */
  lemma RouteDetails(param: string)
    requires '/' !in param
    ensures Route("details/" + param) == DetailsPage(Some(param))
  {
    assert "details/" + param == "details" + ['/'] + param;
    SplitAfter("details", '/', param);
    SplitWhole(param, '/');
  }

  /** The number the navbar badge receives. */
  function NavbarCount(s: AppState): nat { |s.installed| }

  /** Installing an app that was absent adds one to the navbar count;
      uninstalling an installed id of a duplicate-free list takes one off. */
  lemma NavbarCountSteps(s: AppState, catalog: seq<Product>, app: Product)
    requires NoDup(s.installed)
    ensures app.id !in s.installed ==> NavbarCount(Install(s, app)) == NavbarCount(s) + 1
    ensures app.id in s.installed ==>
              NavbarCount(Uninstall(s, catalog, app.id)) == NavbarCount(s) - 1
  {
    if app.id in s.installed {
      var k :| 0 <= k < |s.installed| && s.installed[k] == app.id;
      var l := s.installed;
      assert l == l[..k] + [app.id] + l[k + 1..];
      NoDupSplit(l, k);
      RemoveAbsent(l[..k], app.id);
      RemoveAbsent(l[k + 1..], app.id);
      RemoveConcat(l[..k], [app.id], app.id);
      RemoveConcat(l[..k] + [app.id], l[k + 1..], app.id);
      assert RemoveAll([app.id], app.id) == [];
    }
  }

  lemma NoDupSplit(l: seq<int>, k: int)
    requires NoDup(l) && 0 <= k < |l|
    ensures l[k] !in l[..k] && l[k] !in l[k + 1..]
  {
  }

  lemma {:induction false} RemoveConcat(a: seq<int>, b: seq<int>, x: int)
    ensures RemoveAll(a + b, x) == RemoveAll(a, x) + RemoveAll(b, x)
  {
    if a != [] {
      assert (a + b)[1..] == a[1..] + b;
      RemoveConcat(a[1..], b, x);
    } else {
      assert a + b == b;
    }
  }
}

=== FILE: text.dfy ===
/** The string operations the components rely on: ASCII lower-casing,
    `includes`, `startsWith`, `split` on one separator, the decimal text of an
    integer (a template literal `${n}`) and `parseInt`. */
module Text {
  import opened Options

  // ---------------------------------------------------------------------------
  // Lower-casing (ASCII only)
  // ---------------------------------------------------------------------------

  predicate IsUpper(c: char) { 'A' <= c <= 'Z' }

  function LowerChar(c: char): char
  {
    if IsUpper(c) then (c as int + 32) as char else c
  }

  /** `toLowerCase`, restricted to the ASCII letters. */
  function Lower(s: string): (r: string)
    ensures |r| == |s|
    ensures forall i :: 0 <= i < |s| ==> r[i] == LowerChar(s[i])
  {
    seq(|s|, i requires 0 <= i < |s| => LowerChar(s[i]))
  }

  /** A lower-cased string has no upper-case letter left, so lower-casing twice
      changes nothing. */
  lemma LowerIdempotent(s: string)
    ensures forall i :: 0 <= i < |s| ==> !IsUpper(Lower(s)[i])
    ensures Lower(Lower(s)) == Lower(s)
  {
  }

  // ---------------------------------------------------------------------------
  // Substring and prefix tests
  // ---------------------------------------------------------------------------

  /** `needle` occurs in `hay` starting at position `i`. */
  ghost predicate OccursAt(hay: string, needle: string, i: int)
  {
    0 <= i && i + |needle| <= |hay| && hay[i..i + |needle|] == needle
  }

  /** `s.startsWith(prefix)`. */
  predicate StartsWith(s: string, prefix: string)
  {
    |prefix| <= |s| && s[..|prefix|] == prefix
  }

  lemma OccursShift(hay: string, needle: string)
    requires |hay| > 0
    ensures forall i :: 0 <= i ==> (OccursAt(hay[1..], needle, i) <==> OccursAt(hay, needle, i + 1))
  {
    forall i | 0 <= i && OccursAt(hay, needle, i + 1)
      ensures OccursAt(hay[1..], needle, i)
    {
      assert hay[1..][i..i + |needle|] == hay[i + 1..i + 1 + |needle|];
    }
    forall i | OccursAt(hay[1..], needle, i)
      ensures OccursAt(hay, needle, i + 1)
    {
      assert hay[1..][i..i + |needle|] == hay[i + 1..i + 1 + |needle|];
    }
  }

  /** `hay.includes(needle)`: true exactly when `needle` occurs somewhere in
      `hay`; the empty string occurs everywhere. */
  function Includes(hay: string, needle: string): (b: bool)
    ensures b <==> exists i :: OccursAt(hay, needle, i)
    decreases |hay|
  {
    if |needle| > |hay| then false
    else if StartsWith(hay, needle) then assert OccursAt(hay, needle, 0); true
    else
      OccursShift(hay, needle);
      assert !OccursAt(hay, needle, 0);
      assert forall i :: OccursAt(hay, needle, i) ==> OccursAt(hay[1..], needle, i - 1);
      Includes(hay[1..], needle)
  }

  lemma EmptyIncluded(hay: string)
    ensures Includes(hay, "")
  {
    assert OccursAt(hay, "", 0);
  }

  // ---------------------------------------------------------------------------
  // Splitting on one separator character
  // ---------------------------------------------------------------------------

  /** Glues segments back together with `sep` between them. */
  function Join(parts: seq<string>, sep: char): string
    requires |parts| >= 1
  {
    if |parts| == 1 then parts[0] else parts[0] + [sep] + Join(parts[1..], sep)
  }

  /** `s.split(sep)` for a one-character separator: never empty, no segment
      holds the separator, and joining the segments gives `s` back. */
  function Split(s: string, sep: char): (parts: seq<string>)
    ensures |parts| >= 1
    ensures forall i :: 0 <= i < |parts| ==> sep !in parts[i]
    ensures Join(parts, sep) == s
  {
    if s == [] then [[]]
    else
      var rest := Split(s[1..], sep);
      if s[0] == sep then
        assert s == [sep] + s[1..];
        [[]] + rest
      else
        var parts := [[s[0]] + rest[0]] + rest[1..];
        assert parts[1..] == rest[1..];
        assert s == [s[0]] + s[1..];
        parts
  }

  /** A string without the separator is one segment. */
  lemma {:induction false} SplitWhole(a: string, sep: char)
    requires sep !in a
    ensures Split(a, sep) == [a]
  {
    if a != [] {
      SplitWhole(a[1..], sep);
      assert [a[0]] + a[1..] == a;
    }
  }

  /** The segment before the first separator comes first, then the segments
      of what follows it. */
  lemma {:induction false} SplitAfter(a: string, sep: char, b: string)
    requires sep !in a
    ensures Split(a + [sep] + b, sep) == [a] + Split(b, sep)
  {
    var s := a + [sep] + b;
    if a == [] {
      assert s[1..] == b;
    } else {
      assert s[1..] == a[1..] + [sep] + b;
      SplitAfter(a[1..], sep, b);
      assert [a[0]] + a[1..] == a;
    }
  }

  /** The inverse direction of `Split`'s contract: splitting joined segments
      gives the segments back. */
  lemma {:induction false} SplitJoin(parts: seq<string>, sep: char)
    requires |parts| >= 1
    requires forall i :: 0 <= i < |parts| ==> sep !in parts[i]
    ensures Split(Join(parts, sep), sep) == parts
  {
    if |parts| == 1 {
      SplitWhole(parts[0], sep);
    } else {
      SplitJoin(parts[1..], sep);
      SplitAfter(parts[0], sep, Join(parts[1..], sep));
      assert [parts[0]] + parts[1..] == parts;
    }
  }

  /** The characters before the first `sep` (all of `s` when there is none). */
  function TakeUntil(s: string, sep: char): (r: string)
    ensures sep !in r && StartsWith(s, r)
    ensures |r| < |s| ==> s[|r|] == sep
  {
    if s == [] || s[0] == sep then []
    else
      var t := TakeUntil(s[1..], sep);
      assert ([s[0]] + t)[1..] == t;
      [s[0]] + t
  }

  /** The first segment of a split is the text before the first separator,
      and a second segment exists exactly when a separator does; it is the
      text between the first and the second separator. */
  lemma {:induction false} SplitSegments(s: string, sep: char)
    ensures Split(s, sep)[0] == TakeUntil(s, sep)
    ensures |Split(s, sep)| >= 2 <==> |TakeUntil(s, sep)| < |s|
    ensures |TakeUntil(s, sep)| < |s| ==>
              Split(s, sep)[1] == TakeUntil(s[|TakeUntil(s, sep)| + 1..], sep)
  {
    var a := TakeUntil(s, sep);
    if |a| == |s| {
      assert a == s;
      SplitWhole(s, sep);
    } else {
      var b := s[|a| + 1..];
      assert s == a + [sep] + b;
      SplitAfter(a, sep, b);
      SplitSegments(b, sep);
    }
  }

  // ---------------------------------------------------------------------------
  // Decimal text of integers and parseInt
  // ---------------------------------------------------------------------------

  predicate IsDigit(c: char) { '0' <= c <= '9' }

  predicate AllDigits(s: string)
  {
    forall i :: 0 <= i < |s| ==> IsDigit(s[i])
  }

  function DigitChar(d: nat): (c: char)
    requires d < 10
  {
    ('0' as int + d) as char
  }

  /** The canonical decimal text of a natural number (no leading zeros). */
  function NatToString(n: nat): (s: string)
    ensures |s| >= 1 && AllDigits(s)
    ensures s[0] == '0' ==> n == 0
    decreases n
  {
    if n < 10 then [DigitChar(n)] else NatToString(n / 10) + [DigitChar(n % 10)]
  }

  /** The text of an integer as a template literal writes it. */
  function IntToString(i: int): (s: string)
    ensures |s| >= 1
    ensures s[0] == '-' <==> i < 0
    ensures var ds := if i < 0 then s[1..] else s;
            |ds| >= 1 && AllDigits(ds) && (ds[0] == '0' ==> i == 0)
    ensures forall k :: 0 <= k < |s| ==> s[k] != '/'
  {
    if i < 0 then "-" + NatToString(-i) else NatToString(i)
  }

  /** Length of the run of decimal digits at the start of `s`. */
  function DigitRun(s: string): (k: nat)
    ensures k <= |s|
    ensures AllDigits(s[..k])
    ensures k < |s| ==> !IsDigit(s[k])
  {
    if s != [] && IsDigit(s[0]) then
      var k := 1 + DigitRun(s[1..]);
      assert s[..k] == [s[0]] + s[1..][..k - 1];
      k
    else 0
  }

  /** The value of a string of decimal digits. */
  function DigitsValue(ds: string): nat
    requires AllDigits(ds)
  {
    if ds == [] then 0
    else DigitsValue(ds[..|ds| - 1]) * 10 + (ds[|ds| - 1] as int - '0' as int)
  }

  /** The value of the leading digit run, or `None` (NaN) if there is none. */
  function ParseUnsigned(s: string): Option<nat>
  {
    var k := DigitRun(s);
    if k == 0 then None else Some(DigitsValue(s[..k]))
  }

  /** `parseInt(s)`: an optional sign, then the longest run of decimal digits;
      whatever follows the run is ignored; no digits at all gives NaN. */
  function ParseInt(s: string): (r: Option<int>)
    ensures r.Some? <==> (if s != [] && (s[0] == '-' || s[0] == '+') then s[1..] else s) != []
                         && IsDigit((if s != [] && (s[0] == '-' || s[0] == '+') then s[1..] else s)[0])
    ensures r.Some? && s[0] == '-' ==> r.value <= 0
    ensures r.Some? && s[0] != '-' ==> r.value >= 0
  {
    if s != [] && s[0] == '-' then
      match ParseUnsigned(s[1..])
      case None => None
      case Some(n) => Some(-(n as int))
    else if s != [] && s[0] == '+' then
      match ParseUnsigned(s[1..])
      case None => None
      case Some(n) => Some(n)
    else
      match ParseUnsigned(s)
      case None => None
      case Some(n) => Some(n)
  }

  lemma {:induction false} DigitRunOfDigits(ds: string, t: string)
    requires AllDigits(ds)
    requires t == [] || !IsDigit(t[0])
    ensures DigitRun(ds + t) == |ds|
  {
    if ds != [] {
      assert (ds + t)[1..] == ds[1..] + t;
      DigitRunOfDigits(ds[1..], t);
    }
  }

  lemma {:induction false} DigitsValueOfNat(n: nat)
    ensures DigitsValue(NatToString(n)) == n
    decreases n
  {
    if n >= 10 {
      var s := NatToString(n);
      assert s[..|s| - 1] == NatToString(n / 10);
      DigitsValueOfNat(n / 10);
    }
  }

  /** `parseInt` reads back the text of an integer, whatever non-digit text
      follows it. */
  lemma ParseIntOfIntToString(i: int, t: string)
    requires t == [] || !IsDigit(t[0])
    ensures ParseInt(IntToString(i) + t) == Some(i)
  {
    var n: nat := if i < 0 then -i else i;
    var ds := NatToString(n);
    DigitRunOfDigits(ds, t);
    DigitsValueOfNat(n);
    assert (ds + t)[..|ds|] == ds;
    if i < 0 {
      var s := IntToString(i) + t;
      assert s[1..] == ds + t;
    }
  }
}
